=== FILE: README.md ===
# Gift-registry write pipeline, modelled in Dafny

This project models the mutation pipeline of a NestJS + TypeORM gift-registry
backend: user registration and partial update, the three user lookups, the
credential check and the session token, and the wishlist service with the
ownership gate its controller puts in front of update and removal. Every
operation is a pure function from the inputs and the current table to a status
(`Ok`, `BadRequest`, `Conflict`, `Unauthorized`, `Forbidden`, `Fatal`,
`Swallowed`) and, for writes, the table afterwards.

Layout:

- `common.dfy` (`Common`): optional values, JavaScript truthiness of DTO fields,
  the storage faults, the SQLSTATE codes 23505 (unique_violation) and 22P02
  (invalid_text_representation) from Appendix A of the PostgreSQL documentation,
  the storage error classifier, and the status type.
- `tables.dfy` (`Tables`): a table as the sequence of its rows in scan order, and
  the reads and writes TypeORM issues against it (first matching row, UPDATE of
  the matching rows, DELETE of the matching rows).
- `domain.dfy` (`Domain`): the user and wishlist rows, the candidates the
  validation gate sees, select projections, and the uninterpreted collaborators.
- `users_service.dfy`, `wishlists_service.dfy`, `wishlists_controller.dfy`,
  `auth_service.dfy`: one module per source file.
- `scenarios.dfy`: end-to-end runs (same username twice, an about-only update,
  a wishlist created, renamed and checked for ownership).

How the environment is represented:

- The collaborators are function-valued fields of `Domain.Collaborators`, with no
  axioms: `hash`, `compare`, `sign`, the class-validator gate per entity
  (`validUser`, `validWishlist`), `wellFormedId` (whether an id parses as the key
  column's type; the entity files are not part of this model), and the wish
  resolver `findManyById`.
- Storage nondeterminism is the `Common.Io` parameter: a fault the next read
  raises, a fault the next write raises, and the id the database assigns on
  insert. The unique constraints are decided by the table itself: an insert whose
  id, username or email is taken, or an update that takes another row's username
  or email, fails with 23505.

The model keeps these behaviours of the code, which look unintended:

- A catch block that matches nothing makes the call resolve to undefined
  (`Swallowed`), and a null or undefined row that is then dereferenced is a crash
  (`Fatal`).
- A *save* failure other than 23505 in `create`/`updateById` is swallowed, not
  propagated. A *read* failure other than 22P02 in `updateById` is swallowed too,
  but leaves `existUser` undefined, so `existUser.id` crashes (`Fatal`).
- `checkOwner` on a well-formed id with no row crashes instead of answering false.
- `validatePassword` on a lookup whose storage error was swallowed crashes on
  `user.password` instead of answering Unauthorized.
- Wishlist items can be cleared: a non-empty `itemsId` that resolves to no wishes
  hands `[]` to the service, which replaces the items with it
  (`WishlistsController.UnresolvedItemsClearWishlist`).
- `updateById` keeps the old digest when the hash of a truthy password is itself
  falsy, because it tests `newPassword ? … : …`.
- `findUser` matches either column, so it can return a user whose username equals
  the email being looked up (`UsersService.CreateThenFind` needs that no earlier
  user has such a username).

## Model

| member | source | states |
|---|---|---|
| Common.Classify | backend/src/users/users.service.ts:58-64 | a fault is a duplicate exactly when it is a QueryFailedError with code 23505, and a malformed id exactly when its code is 22P02 |
| UsersService.OnSaveFailure | backend/src/users/users.service.ts:32-41 | a failed save becomes Conflict exactly for 23505; every other failure falls out of the catch block |
| UsersService.Create | backend/src/users/users.service.ts:21-42 | an invalid candidate gives BadRequest with the table unchanged; success exactly when valid, no write fault and no unique clash; the stored row holds the hash of the password, the input's other fields and the assigned id, appended to the table; 23505 gives Conflict, other failures are swallowed; failures leave the table unchanged |
| UsersService.CreateRejectsBeforeHashing | backend/src/users/users.service.ts:22-28 | a registration the gate rejects has the same outcome whatever the hash function is: hashing only happens after validation |
| UsersService.MergeUser | backend/src/users/users.service.ts:67-82 | the id is kept; username, email, about, avatar come from the body when truthy, else from the existing row; the password becomes the hash of a truthy input unless that hash is falsy; an all-falsy body yields the existing row |
| UsersService.MergeIdempotent | backend/src/users/users.service.ts:67-82 | merging the same body a second time, with a freshly salted hash, changes no field but the digest; without a password in the body it changes nothing |
| UsersService.MergeOnlyAbout | backend/src/users/users.service.ts:73-82 | a body holding only a non-empty about changes only about |
| UsersService.StoreMerged | backend/src/users/users.service.ts:84-103 | a merged record the gate rejects gives BadRequest; success exactly when it passes, no write fault occurs and no other row holds its username or email; then every row with its id is replaced by it and no other row changes; 23505 gives Conflict, other save faults are swallowed; failures leave the table unchanged |
| UsersService.UpdateById | backend/src/users/users.service.ts:44-104 | a 22P02 read (or a malformed id) gives BadRequest and writes nothing; any other read fault or a missing row crashes; a found row goes through `StoreMerged`: a merge the gate rejects gives BadRequest, and a clean save succeeds, storing the merge of the existing row in place of every row with that id and nothing else; 23505 on save gives Conflict, other save faults are swallowed |
| UsersService.FindByUsername | backend/src/users/users.service.ts:106-127 | a miss gives BadRequest, a storage error is swallowed; a hit has that username, never the email, and the digest exactly when requested |
| UsersService.FindByUsernameExact | backend/src/users/users.service.ts:109-120 | with unique usernames the lookup returns exactly that user's projection |
| UsersService.FindOne | backend/src/users/users.service.ts:129-134 | success exactly when the id is well formed and present; the profile has no digest and lists exactly the wishlists the user owns; every failure is fatal |
| UsersService.CreateThenFindOne | backend/src/users/users.service.ts:21-31 | after a registration, the lookup by the assigned id succeeds and shows the new row with its email and without its digest |
| UsersService.FindUser | backend/src/users/users.service.ts:136-157 | success exactly when some user's email or username equals the query; the projection has the email and never the digest; a miss gives BadRequest |
| UsersService.CreatePreservesUnique | backend/src/users/users.service.ts:29-41 | registration keeps ids, usernames and emails unique across the table |
| UsersService.UpdatePreservesUnique | backend/src/users/users.service.ts:92-103 | a partial update keeps ids, usernames and emails unique across the table |
| UsersService.CreateThenFind | backend/src/users/users.service.ts:21-31 | after a registration, lookup by username finds the new row without digest or email, and lookup by email finds it with the email |
| WishlistsService.Create | backend/src/wishlists/wishlists.service.ts:18-34 | BadRequest exactly when the candidate is invalid, with the table unchanged; on success the owner is exactly the given user and the items exactly the given wishes; every save failure is fatal |
| WishlistsService.FindAll | backend/src/wishlists/wishlists.service.ts:36-43 | success exactly without a read fault, returning exactly the stored wishlists |
| WishlistsService.FindOne | backend/src/wishlists/wishlists.service.ts:45-59 | 22P02 or a malformed id gives BadRequest, other faults are swallowed, a missing row gives null, a hit is a stored row with that id |
| WishlistsService.CreateThenFindOne | backend/src/wishlists/wishlists.service.ts:18-34 | after a creation, the lookup by the assigned id returns exactly the stored row |
| WishlistsService.CreateThenFindAll | backend/src/wishlists/wishlists.service.ts:18-34 | after a creation, the listing holds the new wishlist and exactly the earlier ones besides |
| WishlistsService.MergeWishlist | backend/src/wishlists/wishlists.service.ts:89-98 | id and owner are kept; name and image come from the body when truthy; items are replaced whenever a list is supplied, the empty one included |
| WishlistsService.StoreMerged | backend/src/wishlists/wishlists.service.ts:99-105 | BadRequest exactly when the gate rejects the merged record; success exactly when it passes and no write fault occurs; then the rows with its id take its name, image and items and keep their owner, the other rows are unchanged; every save fault is fatal |
| WishlistsService.Update | backend/src/wishlists/wishlists.service.ts:61-106 | 22P02 gives BadRequest and writes nothing; other read faults and a missing row crash; a found row goes through `StoreMerged`: a merge the gate rejects gives BadRequest with the table unchanged, a save fault is fatal, and otherwise the update succeeds, rewriting only the rows with that id and keeping every id and owner |
| WishlistsService.UpdateIgnoresResolver | backend/src/wishlists/wishlists.service.ts:61-65 | the service never resolves wishes: its outcome is the same for any resolver |
| WishlistsService.CheckOwner | backend/src/wishlists/wishlists.service.ts:108-125 | 22P02 gives BadRequest; a missing row crashes instead of answering false; otherwise the answer is whether the row's owner is the user |
| WishlistsService.CheckOwnerExact | backend/src/wishlists/wishlists.service.ts:124 | with unique ids the check answers true exactly when the user owns that wishlist |
| WishlistsService.RemoveOne | backend/src/wishlists/wishlists.service.ts:127-138 | takes no user, so checks no ownership; on success no row with that id remains and every other row is kept; every failure is fatal with the table unchanged |
| WishlistsService.FilterKeepsUniqueIds | backend/src/wishlists/wishlists.service.ts:137 | deleting rows keeps the primary key unique |
| WishlistsService.CreateKeepsUniqueIds | backend/src/wishlists/wishlists.service.ts:28-33 | creation keeps the primary key unique |
| WishlistsService.UpdateKeepsUniqueIds | backend/src/wishlists/wishlists.service.ts:89-105 | an update keeps the primary key unique |
| WishlistsService.RemoveKeepsUniqueIds | backend/src/wishlists/wishlists.service.ts:127-137 | removal keeps the primary key unique |
| WishlistsController.Create | backend/src/wishlists/wishlists.controller.ts:35-43 | a failed wish lookup is fatal before the service runs, with the table unchanged; otherwise the outcome is exactly the service's; success exactly when the lookup succeeds and the service would succeed; on success the owner is the authenticated request user and the items are the wishes resolved from itemsId |
| WishlistsController.CreateThenCheckOwner | backend/src/wishlists/wishlists.controller.ts:35-43 | after a creation, the ownership check on the new id answers true exactly for the requester |
| WishlistsController.ResolveItems | backend/src/wishlists/wishlists.controller.ts:62-67 | wishes are resolved exactly when itemsId is present and non-empty, otherwise undefined |
| WishlistsController.Update | backend/src/wishlists/wishlists.controller.ts:53-69 | a non-owner gets Forbidden with the table unchanged; for an owner with a non-empty itemsId a failed wish lookup is fatal; otherwise an owner gets exactly the service outcome; a success implies the requester owns the row; without a non-empty itemsId the existing items are kept |
| WishlistsController.RemoveOne | backend/src/wishlists/wishlists.controller.ts:73-82 | a non-owner gets Forbidden with the table unchanged; an owner gets exactly the service outcome; a success implies the requester owned the removed row |
| WishlistsController.ForbiddenUpdateSkipsService | backend/src/wishlists/wishlists.controller.ts:58-61 | a refused update is Forbidden whatever the wish lookup and the service's storage would do |
| WishlistsController.ForbiddenRemoveSkipsService | backend/src/wishlists/wishlists.controller.ts:77-80 | a refused removal is Forbidden with the table unchanged whatever the service's storage would do |
| WishlistsController.NoItemsIdSkipsResolver | backend/src/wishlists/wishlists.controller.ts:62-68 | without a non-empty itemsId the update's outcome depends neither on what the wish lookup would resolve nor on a fault it would raise |
| WishlistsController.UnresolvedItemsClearWishlist | backend/src/wishlists/wishlists.controller.ts:63-68 | a non-empty itemsId that resolves to nothing empties the items of an updated wishlist |
| AuthService.LoginIssuesTokenForUser | backend/src/auth/auth.service.ts:15-30 | with unique usernames, the right password for a stored user passes the check, and the token issued for the returned user signs claims whose subject is that stored user's id |
| AuthService.AuthSeesOnlyTheId | backend/src/auth/auth.service.ts:16 | two users with the same id get the same token: no other field enters the claims |
| AuthService.ValidatePassword | backend/src/auth/auth.service.ts:19-31 | the lookup asks for the digest; a rejected lookup and a mismatch both give Unauthorized with the one shared message; success exactly when the lookup finds the user and compare accepts the password against its digest |
| AuthService.UnknownUserLooksLikeWrongPassword | backend/src/auth/auth.service.ts:21-29 | an unknown username and a known one with a wrong password give the identical answer |
| AuthService.ValidatePasswordExact | backend/src/auth/auth.service.ts:26-30 | with unique usernames the check accepts exactly when compare accepts the password against that user's digest, returning that user with the digest |
| Scenarios.SameUsernameTwice | backend/src/users/users.service.ts:29-41 | of two valid registrations with the same username, the first succeeds and the second is a Conflict |
| Scenarios.UpdateOnlyAbout | backend/src/users/users.service.ts:73-93 | an update holding only about stores the existing row with only about changed |
| Scenarios.BirthdayList | backend/src/wishlists/wishlists.controller.ts:35-69 | a wishlist created with no items and renamed keeps no items and the new name; the ownership check is true for its creator and false for anyone else |

## Left out

- Timestamps (`createdAt`, `updatedAt`) and column defaults: system-managed, nothing in the flows depends on them; registration takes `about` and `avatar` as always supplied.
- The exact exception messages: only the error kind is modelled, plus one message constant shared by both credential failures, rendered in English.
- The validation messages carried by BadRequest, and the class-validator constraints: the gate is the uninterpreted `validUser`/`validWishlist`.
- bcrypt and JWT: `hash`, `compare` and `sign` are uninterpreted. As Dafny functions they are deterministic, whereas bcrypt salts every hash; no property here relates two hashes of the same input, and `MergeIdempotent` gives each merge its own hash function.
- The wishes and offers relations of `findOne`, and the `findAll` ordering: only the owned wishlists are expanded, and the table order is returned.
- The default projection is assumed to leave out the password column, as its explicit selection in `updateById` and `findByUsername` implies; the entity file is not part of this model.
- Async scheduling, concurrent updates (lost updates between read and save), the HTTP decorators and `JwtGuard`: each call is atomic over the table it is given.
- Each call makes at most one read and one write per `Io`; the controller's ownership read gets its own `Io`, and the awaited wish lookup is reduced to the fault it may raise (`wishesFault`).
- UsersService.MergeIdempotent: promises nothing about the digest after a second merge of a body with a password, because bcrypt draws a fresh salt on every call and the two digests differ.
- WishlistsService.RemoveOne: returns the removed row with its id, where `remove` resolves to the entity after TypeORM has cleared its primary key, so the response carries no id.
- WishlistsService.Update: returns the stored row with its owner, where the source's response object omits the owner field.
- Bootstrap and configuration wiring (`app.module.ts`): no behaviour to state.

=== FILE: auth_service.dfy ===
/** The credential check and the session token. */
module AuthService {
  import opened Common
  import opened Domain
  import Users = UsersService

  /** The one message both credential failures carry. */
  const BadCredentials: string := "invalid login and password pair"

  /** The response of a successful login. */
  datatype Session = Session(accessToken: string)

  /** Issues the token for an already verified user: the signed claims name the
      user's id as subject and nothing else. */
  function Auth(env: Collaborators, user: UserView): (s: Session)
    ensures s.accessToken == env.sign(Claims(user.id))
  {
    Session(env.sign(Claims(user.id)))
  }

  /** Nothing but the id reaches the token: two users with the same id get the same token. */
  lemma AuthSeesOnlyTheId(env: Collaborators, a: UserView, b: UserView)
    requires a.id == b.id
    ensures Auth(env, a) == Auth(env, b)
  {
  }

  /** The credential check: a privileged lookup that includes the digest, then
      the comparison. Any error the lookup raises, and a mismatch, both end in the
      same Unauthorized. */
  function ValidatePassword(env: Collaborators, io: Io, users: seq<User>, username: string, password: string)
    : (r: Status<UserView>)
    ensures r.Ok? || r.Unauthorized? || r.Fatal?
    ensures r.Unauthorized? ==> r.message == BadCredentials
    ensures Users.FindByUsername(io, users, username, true).BadRequest? ==> r == Unauthorized(BadCredentials)
    ensures Users.FindByUsername(io, users, username, true).Swallowed? ==> r == Fatal
    ensures var lookup := Users.FindByUsername(io, users, username, true);
      lookup.Ok? && !env.compare(password, lookup.value.password.value) ==> r == Unauthorized(BadCredentials)
    ensures r.Ok? <==>
      var lookup := Users.FindByUsername(io, users, username, true);
      lookup.Ok? && env.compare(password, lookup.value.password.value)
    ensures r.Ok? ==> r == Users.FindByUsername(io, users, username, true)
    ensures r.Ok? ==>
      exists i :: 0 <= i < |users| && users[i].username == username
        && env.compare(password, users[i].password) && r.value == Users.View(users[i], false, true)
  {
    match Users.FindByUsername(io, users, username, true)
    case Ok(user) =>
      (match user.password
       case Some(digest) => if env.compare(password, digest) then Ok(user) else Unauthorized(BadCredentials)
       case None => Fatal)
    case Swallowed =>
      // the lookup swallowed a storage error and returned undefined: `user.password` throws
      Fatal
    case _ => Unauthorized(BadCredentials)
  }

  /** Login end to end: with unique usernames, the right password for a stored
      user passes the check, and the token issued for the user it returns is the
      signature of claims naming that stored user's id. */
  lemma LoginIssuesTokenForUser(env: Collaborators, io: Io, users: seq<User>, k: nat, password: string)
    requires io.readFault.None?
    requires Users.Unique(users) && k < |users|
    requires env.compare(password, users[k].password)
    ensures var r := ValidatePassword(env, io, users, users[k].username, password);
      r.Ok? && Auth(env, r.value).accessToken == env.sign(Claims(users[k].id))
  {
    ValidatePasswordExact(env, io, users, k, password);
  }

  /** An unknown username and a known username with a wrong password give the
      very same answer. */
  lemma UnknownUserLooksLikeWrongPassword(
    env: Collaborators, io: Io, users: seq<User>, unknown: string, p: string, k: nat, wrong: string)
    requires io.readFault.None?
    requires forall i :: 0 <= i < |users| ==> users[i].username != unknown
    requires Users.Unique(users) && k < |users|
    requires !env.compare(wrong, users[k].password)
    ensures ValidatePassword(env, io, users, unknown, p) == Unauthorized(BadCredentials)
    ensures ValidatePassword(env, io, users, users[k].username, wrong) == Unauthorized(BadCredentials)
  {
    Users.FindByUsernameExact(io, users, k, true);
  }

  /** With unique usernames, the check accepts exactly when the password matches
      the stored digest of that user, and then returns that user with the digest. */
  lemma ValidatePasswordExact(env: Collaborators, io: Io, users: seq<User>, k: nat, password: string)
    requires io.readFault.None?
    requires Users.Unique(users) && k < |users|
    ensures var r := ValidatePassword(env, io, users, users[k].username, password);
      (r.Ok? <==> env.compare(password, users[k].password))
      && (r.Ok? ==> r.value == Users.View(users[k], false, true))
  {
    Users.FindByUsernameExact(io, users, k, true);
  }
}

=== FILE: common.dfy ===
/** Values shared by every service of the write pipeline: optional values,
    JavaScript truthiness, the failures the storage driver can raise, the
    storage error classifier, and the outcomes a service call can have. */
module Common {

  /** Identifiers as the HTTP layer hands them to the services: raw strings,
      which may or may not have the shape of a primary key. */
  type Id = string

  datatype Option<+T> = None | Some(value: T)

  /** JavaScript truthiness of an optional string field of a DTO:
      an absent field and the empty string are both falsy. */
  predicate Truthy(s: Option<string>) {
    s.Some? && s.value != ""
  }

  /** The expression `input ? input : keep` the update flows apply field by field. */
  function KeepIfFalsy(input: Option<string>, keep: string): (v: string) {
    if Truthy(input) then input.value else keep
  }

  /** SQLSTATE unique_violation (PostgreSQL, Appendix A, class 23). */
  const UniqueViolation: string := "23505"

  /** SQLSTATE invalid_text_representation (PostgreSQL, Appendix A, class 22),
      raised when an id parameter does not parse as the key column's type. */
  const InvalidTextRepresentation: string := "22P02"

  /** A failure raised by the storage layer. */
  datatype Fault =
    | QueryFailed(code: string)  // a QueryFailedError whose driver error carries this SQLSTATE
    | Unrecognised               // any other error: a lost connection, a driver bug, ...

  /** What the storage error classifier makes of a fault. */
  datatype Cause = Duplicate | MalformedId | Unclassified

  /** The storage error classifier: the two driver causes the services recognise,
      everything else left unclassified. */
  function Classify(f: Fault): (c: Cause)
    ensures c.Duplicate? <==> f.QueryFailed? && f.code == UniqueViolation
    ensures c.MalformedId? <==> f.QueryFailed? && f.code == InvalidTextRepresentation
  {
    match f
    case QueryFailed(code) =>
      if code == UniqueViolation then Duplicate
      else if code == InvalidTextRepresentation then MalformedId
      else Unclassified
    case Unrecognised => Unclassified
  }

  /** How a service call ends, as the HTTP layer sees it. */
  datatype Status<+T> =
    | Ok(value: T)
    | BadRequest                     // BadRequestException (HTTP 400)
    | Conflict                       // ConflictException (HTTP 409)
    | Unauthorized(message: string)  // UnauthorizedException (HTTP 401)
    | Forbidden                      // ForbiddenException (HTTP 403)
    | Fatal                          // an uncaught error or a TypeError (HTTP 500)
    | Swallowed                      // a catch block matched nothing: the call resolves to undefined

  /** Re-raises a failure under another success type. */
  function Rethrow<T, U>(s: Status<T>): (r: Status<U>)
    requires !s.Ok?
    ensures r.BadRequest? == s.BadRequest? && r.Conflict? == s.Conflict? && r.Forbidden? == s.Forbidden?
    ensures r.Fatal? == s.Fatal? && r.Swallowed? == s.Swallowed? && r.Unauthorized? == s.Unauthorized?
  {
    match s
    case BadRequest => BadRequest
    case Conflict => Conflict
    case Unauthorized(m) => Unauthorized(m)
    case Forbidden => Forbidden
    case Fatal => Fatal
    case Swallowed => Swallowed
  }

  /** Storage interaction of one service call: a fault the next read raises (if any),
      a fault the next write raises (if any), and the id the database assigns to an
      inserted row. */
  datatype Io = Io(readFault: Option<Fault>, writeFault: Option<Fault>, freshId: Id)

  /** The outcome of a `findOne`: a row, no row (`null`), or a raised fault. */
  datatype Lookup<+R> = Hit(row: R) | Miss | Raised(fault: Fault)

  /** The outcome of a write: the table afterwards, or a raised fault. */
  datatype Write<+R> = Written(rows: seq<R>) | Rejected(fault: Fault)

  /** A service call that may write: its status and the table afterwards. */
  datatype Reply<+T, +R> = Reply(status: Status<T>, table: seq<R>)
}

=== FILE: domain.dfy ===
/** The entities of the write pipeline and the collaborators it calls but does
    not implement. */
module Domain {
  import opened Common

  /** A row of the users table; `password` holds a digest. The timestamps are
      system-managed and not modelled. */
  datatype User = User(id: Id, username: string, email: string, password: string, about: string, avatar: string)

  /** A user entity instance before it is saved: the id is absent until the
      database assigns one, and `password` is whatever the flow put there. */
  datatype UserDraft = UserDraft(id: Option<Id>, username: string, email: string, password: string, about: string, avatar: string)

  /** A user as a select projection returns it: an unselected column is `None`. */
  datatype UserView = UserView(id: Id, username: string, about: string, avatar: string, email: Option<string>, password: Option<string>)

  /** A row of the wishlists table with its owner's id and its items (wish ids, in order). */
  datatype Wishlist = Wishlist(id: Id, name: string, image: string, owner: Id, items: seq<Id>)

  /** A wishlist entity instance before it is saved; the merged record of an
      update carries no owner. */
  datatype WishlistDraft = WishlistDraft(id: Option<Id>, name: string, image: string, owner: Option<Id>, items: seq<Id>)

  /** The payload of a session token. */
  datatype Claims = Claims(sub: Id)

  /** The collaborators the services call, left uninterpreted: password hashing
      and comparison, token signing, the class-validator gate for each entity,
      whether an id has the key column's shape, and the wish lookup by ids. */
  datatype Collaborators = Collaborators(
    hash: string -> string,
    compare: (string, string) -> bool,
    sign: Claims -> string,
    validUser: UserDraft -> bool,
    validWishlist: WishlistDraft -> bool,
    wellFormedId: Id -> bool,
    findManyById: seq<Id> -> seq<Id>)

  /** WHERE id = `id` on the users table. */
  function UserWithId(id: Id): User -> bool {
    (u: User) => u.id == id
  }

  /** WHERE id = `id` on the wishlists table. */
  function WishlistWithId(id: Id): Wishlist -> bool {
    (w: Wishlist) => w.id == id
  }
}

=== FILE: scenarios.dfy ===
/** End-to-end runs of the pipeline over concrete inputs, with the collaborators
    left abstract except for what each run needs of them. */
module Scenarios {
  import opened Common
  import opened Domain
  import U = UsersService
  import W = WishlistsService
  import C = WishlistsController

  /** Two registrations with the same username: the first succeeds, the second is a conflict. */
  lemma SameUsernameTwice(env: Collaborators, io1: Io, io2: Io, first: U.CreateUserDto, second: U.CreateUserDto)
    requires first.username == second.username
    requires env.validUser(U.CreateDraft(first)) && env.validUser(U.CreateDraft(second))
    requires io1.writeFault.None? && io2.writeFault.None?
    ensures U.Create(env, io1, [], first).status.Ok?
    ensures U.Create(env, io2, U.Create(env, io1, [], first).table, second).status.Conflict?
  {
    var r := U.Create(env, io1, [], first);
    assert r.table[0].username == second.username;
    assert U.InsertViolates(r.table, U.Registered(env, io2, second));
  }

  /** An update whose body holds only `about` changes that column of the row and
      nothing else. */
  lemma UpdateOnlyAbout(env: Collaborators, io: Io, users: seq<User>, id: Id, about: string)
    requires about != ""
    ensures var r := U.UpdateById(env, io, users, id, U.UpdateUserDto(None, None, None, Some(about), None));
      r.status.Ok? ==>
        exists i :: 0 <= i < |users| && users[i].id == id && r.status.value == users[i].(about := about)
  {
    var dto := U.UpdateUserDto(None, None, None, Some(about), None);
    var r := U.UpdateById(env, io, users, id, dto);
    if r.status.Ok? {
      var i :| 0 <= i < |users| && users[i].id == id && r.status.value == U.MergeUser(users[i], dto, env.hash);
      U.MergeOnlyAbout(users[i], about, env.hash);
    }
  }

  /** ann creates "Bday" with no items, renames it to "Birthday"; the items stay
      empty, ann is its owner and nobody else is. */
  lemma BirthdayList(env: Collaborators, annId: Id, listId: Id, otherId: Id)
    requires otherId != annId
    requires env.wellFormedId(listId)
    requires env.findManyById([]) == []
    requires env.validWishlist(W.CreateDraft(W.CreateWishlistDto("Bday", "http://i", []), annId, []))
    requires env.validWishlist(W.UpdateDraft(Wishlist(listId, "Birthday", "http://i", annId, [])))
    ensures
      var quiet := Io(None, None, listId);
      var created := C.Create(env, None, quiet, [], W.CreateWishlistDto("Bday", "http://i", []), annId);
      && created.status.Ok?
      && created.status.value.items == []
      && created.status.value.owner == annId
      && var renamed := C.Update(env, quiet, None, quiet, created.table, listId, W.UpdateWishlistDto(Some("Birthday"), None, None), annId);
      && renamed.status.Ok?
      && renamed.status.value.name == "Birthday"
      && renamed.status.value.items == []
      && W.CheckOwner(env, quiet, renamed.table, listId, annId) == Ok(true)
      && W.CheckOwner(env, quiet, renamed.table, listId, otherId) == Ok(false)
  {
    var quiet := Io(None, None, listId);
    var created := C.Create(env, None, quiet, [], W.CreateWishlistDto("Bday", "http://i", []), annId);
    assert created.table == [Wishlist(listId, "Bday", "http://i", annId, [])];
    var dto := W.UpdateWishlistDto(Some("Birthday"), None, None);
    W.CheckOwnerExact(env, quiet, created.table, 0, annId);
    var renamed := C.Update(env, quiet, None, quiet, created.table, listId, dto, annId);
    assert renamed == W.Update(env, quiet, created.table, listId, dto, None);
    assert renamed.status.Ok?;
    assert renamed.table == [Wishlist(listId, "Birthday", "http://i", annId, [])];
    W.CheckOwnerExact(env, quiet, renamed.table, 0, annId);
    W.CheckOwnerExact(env, quiet, renamed.table, 0, otherId);
  }
}

=== FILE: tables.dfy ===
/** A table of the relational store, seen as the sequence of its rows in scan
    order. A `findOne` without ORDER BY returns the first row the scan meets,
    an UPDATE rewrites every row its WHERE clause selects, a DELETE drops them. */
module Tables {
  import opened Common

  /** Index of the first row satisfying `p`. */
  function FirstIndex<R>(t: seq<R>, p: R -> bool): (k: Option<nat>)
    ensures k.Some? ==> k.value < |t| && p(t[k.value])
    ensures k.Some? ==> forall j :: 0 <= j < k.value ==> !p(t[j])
    ensures k.None? <==> forall j :: 0 <= j < |t| ==> !p(t[j])
  {
    if |t| == 0 then None
    else if p(t[0]) then Some(0)
    else
      match FirstIndex(t[1..], p)
      case None => None
      case Some(k) => Some(k + 1)
  }

  /** The first row satisfying `p`, if any. */
  function Find<R>(t: seq<R>, p: R -> bool): (r: Option<R>)
    ensures r.None? <==> forall j :: 0 <= j < |t| ==> !p(t[j])
    ensures r.Some? ==> p(r.value)
    ensures r.Some? ==> exists k :: 0 <= k < |t| && t[k] == r.value && forall j :: 0 <= j < k ==> !p(t[j])
  {
    match FirstIndex(t, p)
    case None => None
    case Some(k) => Some(t[k])
  }

  /** When exactly the row at `i` satisfies `p` among the rows before it, that row is found. */
  lemma FindFirstMatch<R>(t: seq<R>, p: R -> bool, i: nat)
    requires i < |t| && p(t[i])
    requires forall j :: 0 <= j < i ==> !p(t[j])
    ensures Find(t, p) == Some(t[i])
  {
    assert FirstIndex(t, p) == Some(i);
  }

  /** A row satisfying `p` appended to a table with no such row is the one found. */
  lemma FindAppended<R>(t: seq<R>, row: R, p: R -> bool)
    requires p(row)
    requires forall j :: 0 <= j < |t| ==> !p(t[j])
    ensures Find(t + [row], p) == Some(row)
  {
    var t' := t + [row];
    forall j | 0 <= j < |t|
      ensures !p(t'[j])
    {
      assert t'[j] == t[j];
    }
    FindFirstMatch(t', p, |t|);
  }

  /** The rows satisfying `p`, in scan order. */
  function Filter<R>(t: seq<R>, p: R -> bool): (r: seq<R>)
    ensures |r| <= |t|
    ensures forall i :: 0 <= i < |r| ==> p(r[i])
    ensures forall x :: x in r ==> x in t && p(x)
    ensures forall x :: x in t && p(x) ==> x in r
  {
    if |t| == 0 then []
    else
      var rest := Filter(t[1..], p);
      assert t == [t[0]] + t[1..];
      if p(t[0]) then [t[0]] + rest else rest
  }

  /** Every row satisfying `p` rewritten by `f`, the others kept, positions unchanged. */
  function UpdateWhere<R>(t: seq<R>, p: R -> bool, f: R -> R): (r: seq<R>)
    ensures |r| == |t|
    ensures forall i :: 0 <= i < |t| && p(t[i]) ==> r[i] == f(t[i])
    ensures forall i :: 0 <= i < |t| && !p(t[i]) ==> r[i] == t[i]
  {
    if |t| == 0 then []
    else [if p(t[0]) then f(t[0]) else t[0]] + UpdateWhere(t[1..], p, f)
  }

  /** A read: a fault raised by the driver, or the first row satisfying `p` (null when none does). */
  function Query<R>(t: seq<R>, p: R -> bool, io: Io): (l: Lookup<R>)
    ensures l.Raised? <==> io.readFault.Some?
    ensures l.Raised? ==> l.fault == io.readFault.value
    ensures l.Miss? <==> io.readFault.None? && forall j :: 0 <= j < |t| ==> !p(t[j])
    ensures l.Hit? ==> p(l.row)
  {
    if io.readFault.Some? then Raised(io.readFault.value)
    else
      match Find(t, p)
      case None => Miss
      case Some(row) => Hit(row)
  }

  /** A read by primary key: a key the column type cannot parse makes PostgreSQL
      raise invalid_text_representation before any row is looked at. */
  function QueryById<R>(t: seq<R>, p: R -> bool, wellFormed: bool, io: Io): (l: Lookup<R>)
    ensures io.readFault.None? && !wellFormed ==> l == Raised(QueryFailed(InvalidTextRepresentation))
    ensures io.readFault.Some? ==> l == Raised(io.readFault.value)
    ensures l.Miss? <==> io.readFault.None? && wellFormed && forall j :: 0 <= j < |t| ==> !p(t[j])
    ensures l.Hit? ==> wellFormed && p(l.row)
  {
    if io.readFault.None? && !wellFormed then Raised(QueryFailed(InvalidTextRepresentation))
    else Query(t, p, io)
  }
}

=== FILE: users_service.dfy ===
/** The user service: registration, partial update, and the three lookups,
    with the translation of unique_violation and invalid_text_representation
    into caller-facing errors. */
module UsersService {
  import opened Common
  import opened Tables
  import opened Domain

  /** The registration body. The optional `about` and `avatar` are modelled as
      always supplied. */
  datatype CreateUserDto = CreateUserDto(username: string, email: string, password: string, about: string, avatar: string)

  /** The update body: every field optional; `Some("")` behaves like an absent field. */
  datatype UpdateUserDto = UpdateUserDto(
    username: Option<string>,
    email: Option<string>,
    password: Option<string>,
    about: Option<string>,
    avatar: Option<string>)

  /** A user with the wishlists relation expanded. */
  datatype Profile = Profile(user: UserView, wishlists: seq<Wishlist>)

  /** WHERE username = `name`. */
  function UsernameIs(name: string): User -> bool {
    (u: User) => u.username == name
  }

  /** WHERE email = `query` OR username = `query`. */
  function EmailOrUsernameIs(query: string): User -> bool {
    (u: User) => u.email == query || u.username == query
  }

  /** A select projection: id, username, about and avatar always; email and
      password only when selected. */
  function View(u: User, withEmail: bool, withPassword: bool): (v: UserView) {
    UserView(u.id, u.username, u.about, u.avatar,
      if withEmail then Some(u.email) else None,
      if withPassword then Some(u.password) else None)
  }

  /** The candidate registration validates: still holding the plaintext password. */
  function CreateDraft(dto: CreateUserDto): (d: UserDraft) {
    UserDraft(None, dto.username, dto.email, dto.password, dto.about, dto.avatar)
  }

  /** The candidate an update validates: the merged record. */
  function DraftOf(u: User): (d: UserDraft) {
    UserDraft(Some(u.id), u.username, u.email, u.password, u.about, u.avatar)
  }

  /** `row` would take the username or the email of `other`. */
  predicate Takes(other: User, row: User) {
    other.username == row.username || other.email == row.email
  }

  /** An INSERT of `row` violates a unique constraint: primary key, username or email. */
  predicate InsertViolates(t: seq<User>, row: User) {
    exists i :: 0 <= i < |t| && (t[i].id == row.id || Takes(t[i], row))
  }

  /** An UPDATE to `row` violates a unique constraint: another row holds its username or email. */
  predicate UpdateViolates(t: seq<User>, row: User) {
    exists i :: 0 <= i < |t| && t[i].id != row.id && Takes(t[i], row)
  }

  /** The constraints the users table declares: id, username and email are each unique. */
  ghost predicate Unique(t: seq<User>) {
    forall i, j :: 0 <= i < j < |t| ==> t[i].id != t[j].id && !Takes(t[i], t[j])
  }

  /** `usersRepository.save` of a new entity: an INSERT. */
  function SaveNew(t: seq<User>, row: User, io: Io): (w: Write<User>) {
    if io.writeFault.Some? then Rejected(io.writeFault.value)
    else if InsertViolates(t, row) then Rejected(QueryFailed(UniqueViolation))
    else Written(t + [row])
  }

  /** `usersRepository.save` of an entity whose id exists: an UPDATE of every column. */
  function SaveExisting(t: seq<User>, row: User, io: Io): (w: Write<User>) {
    if io.writeFault.Some? then Rejected(io.writeFault.value)
    else if UpdateViolates(t, row) then Rejected(QueryFailed(UniqueViolation))
    else Written(UpdateWhere(t, UserWithId(row.id), (_: User) => row))
  }

  /** The catch block around `save`: a unique_violation becomes a conflict,
      anything else falls out of the catch block. */
  function OnSaveFailure(f: Fault): (s: Status<User>)
    ensures s.Conflict? <==> f == QueryFailed(UniqueViolation)
    ensures s.Conflict? || s.Swallowed?
  {
    if Classify(f).Duplicate? then Conflict else Swallowed
  }

  /** The row registration inserts: the DTO's fields, the digest in place of the
      password, the id the database assigns. */
  function Registered(env: Collaborators, io: Io, dto: CreateUserDto): (u: User) {
    User(io.freshId, dto.username, dto.email, env.hash(dto.password), dto.about, dto.avatar)
  }

  /** Registration: validate the candidate, hash the password, insert. */
  function Create(env: Collaborators, io: Io, users: seq<User>, dto: CreateUserDto): (r: Reply<User, User>)
    ensures !env.validUser(CreateDraft(dto)) ==> r == Reply(BadRequest, users)
    ensures r.status.Ok? <==>
      env.validUser(CreateDraft(dto)) && io.writeFault.None? && !InsertViolates(users, Registered(env, io, dto))
    ensures r.status.Ok? ==>
      var u := r.status.value;
      && u.id == io.freshId
      && u.password == env.hash(dto.password)
      && u.username == dto.username && u.email == dto.email
      && u.about == dto.about && u.avatar == dto.avatar
      && r.table == users + [u]
    ensures env.validUser(CreateDraft(dto)) && io.writeFault.Some? ==> r.status == OnSaveFailure(io.writeFault.value)
    ensures env.validUser(CreateDraft(dto)) && io.writeFault.None? ==>
      (r.status.Conflict? <==> InsertViolates(users, Registered(env, io, dto)))
    ensures r.status.Ok? || r.status.BadRequest? || r.status.Conflict? || r.status.Swallowed?
    ensures !r.status.Ok? ==> r.table == users
  {
    if !env.validUser(CreateDraft(dto)) then Reply(BadRequest, users)
    else
      var row := Registered(env, io, dto);
      match SaveNew(users, row, io)
      case Written(t) => Reply(Ok(row), t)
      case Rejected(f) => Reply(OnSaveFailure(f), users)
  }

  /** A rejected registration never consults the hashing collaborator: its
      outcome is the same whatever `hash` is. */
  lemma CreateRejectsBeforeHashing(env: Collaborators, hash: string -> string, io: Io, users: seq<User>, dto: CreateUserDto)
    requires !env.validUser(CreateDraft(dto))
    ensures Create(env, io, users, dto) == Create(env.(hash := hash), io, users, dto)
    ensures Create(env, io, users, dto).status.BadRequest?
  {
  }

  /** The digest `updateById` computes: present only for a truthy input password. */
  function NewDigest(dto: UpdateUserDto, hash: string -> string): (d: Option<string>) {
    if Truthy(dto.password) then Some(hash(dto.password.value)) else None
  }

  /** No field of the update body is truthy. */
  predicate Blank(dto: UpdateUserDto) {
    !Truthy(dto.username) && !Truthy(dto.email) && !Truthy(dto.password)
    && !Truthy(dto.about) && !Truthy(dto.avatar)
  }

  /** The merged record of `updateById`: the id of the existing row; each field
      from the body when truthy, else from the existing row; the password the
      digest of a truthy input password, unless that digest is itself falsy. */
  function MergeUser(exist: User, dto: UpdateUserDto, hash: string -> string): (m: User)
    ensures m.id == exist.id
    ensures m.username == (if Truthy(dto.username) then dto.username.value else exist.username)
    ensures m.email == (if Truthy(dto.email) then dto.email.value else exist.email)
    ensures m.about == (if Truthy(dto.about) then dto.about.value else exist.about)
    ensures m.avatar == (if Truthy(dto.avatar) then dto.avatar.value else exist.avatar)
    ensures m.password ==
      (if Truthy(dto.password) && hash(dto.password.value) != "" then hash(dto.password.value) else exist.password)
    ensures Blank(dto) ==> m == exist
  {
    User(
      exist.id,
      KeepIfFalsy(dto.username, exist.username),
      KeepIfFalsy(dto.email, exist.email),
      KeepIfFalsy(NewDigest(dto, hash), exist.password),
      KeepIfFalsy(dto.about, exist.about),
      KeepIfFalsy(dto.avatar, exist.avatar))
  }

  /** Applying the same update body twice merges to the same record as once,
      except for the digest: each merge hashes with its own function, as bcrypt
      salts every call, so a body with a password stores a fresh digest each time.
      Without a password in the body the second merge changes nothing at all. */
  lemma MergeIdempotent(exist: User, dto: UpdateUserDto, hash: string -> string, rehash: string -> string)
    ensures var once := MergeUser(exist, dto, hash);
      MergeUser(once, dto, rehash).(password := once.password) == once
    ensures !Truthy(dto.password) ==> MergeUser(MergeUser(exist, dto, hash), dto, rehash) == MergeUser(exist, dto, hash)
  {
  }

  /** An update body holding only `about` changes only `about`. */
  lemma MergeOnlyAbout(exist: User, about: string, hash: string -> string)
    requires about != ""
    ensures var m := MergeUser(exist, UpdateUserDto(None, None, None, Some(about), None), hash);
      m == exist.(about := about)
  {
  }

  /** The read `updateById` starts with returned a row, and its merge passed the gate. */
  ghost predicate UpdateReachesSave(env: Collaborators, io: Io, users: seq<User>, id: Id, dto: UpdateUserDto) {
    && io.readFault.None? && env.wellFormedId(id)
    && Find(users, UserWithId(id)).Some?
    && env.validUser(DraftOf(MergeUser(Find(users, UserWithId(id)).value, dto, env.hash)))
  }

  /** The tail of `updateById` once the row is found: validate the merged record,
      then save it in place of the row with its id. */
  function StoreMerged(env: Collaborators, io: Io, users: seq<User>, merged: User): (r: Reply<User, User>)
    ensures !env.validUser(DraftOf(merged)) ==> r == Reply(BadRequest, users)
    ensures r.status.Ok? <==>
      env.validUser(DraftOf(merged)) && io.writeFault.None? && !UpdateViolates(users, merged)
    ensures r.status.Ok? ==>
      && r.status.value == merged
      && |r.table| == |users|
      && forall i :: 0 <= i < |users| ==> r.table[i] == if users[i].id == merged.id then merged else users[i]
    ensures env.validUser(DraftOf(merged)) && io.writeFault.Some? ==> r.status == OnSaveFailure(io.writeFault.value)
    ensures env.validUser(DraftOf(merged)) && io.writeFault.None? ==>
      (r.status.Conflict? <==> UpdateViolates(users, merged))
    ensures !r.status.Ok? ==> r.table == users
  {
    if !env.validUser(DraftOf(merged)) then Reply(BadRequest, users)
    else
      match SaveExisting(users, merged, io)
      case Written(t) => Reply(Ok(merged), t)
      case Rejected(f) => Reply(OnSaveFailure(f), users)
  }

  /** Partial update: read the row with its digest, merge, validate, save. */
  function UpdateById(env: Collaborators, io: Io, users: seq<User>, id: Id, dto: UpdateUserDto): (r: Reply<User, User>)
    ensures io.readFault == Some(QueryFailed(InvalidTextRepresentation)) ==> r == Reply(BadRequest, users)
    ensures io.readFault.None? && !env.wellFormedId(id) ==> r == Reply(BadRequest, users)
    ensures io.readFault.Some? && io.readFault.value != QueryFailed(InvalidTextRepresentation) ==> r == Reply(Fatal, users)
    ensures io.readFault.None? && env.wellFormedId(id) && (forall i :: 0 <= i < |users| ==> users[i].id != id)
      ==> r == Reply(Fatal, users)
    ensures r.status.Ok? ==>
      exists i :: 0 <= i < |users| && users[i].id == id && r.status.value == MergeUser(users[i], dto, env.hash)
    ensures r.status.Ok? ==> r.status.value.id == id && env.validUser(DraftOf(r.status.value))
    ensures r.status.Ok? ==>
      && |r.table| == |users|
      && forall i :: 0 <= i < |users| ==> r.table[i] == if users[i].id == id then r.status.value else users[i]
    ensures UpdateReachesSave(env, io, users, id, dto) && io.writeFault.Some? ==>
      r.status == OnSaveFailure(io.writeFault.value)
    ensures UpdateReachesSave(env, io, users, id, dto) && io.writeFault.None? ==>
      (r.status.Conflict? <==> UpdateViolates(users, MergeUser(Find(users, UserWithId(id)).value, dto, env.hash)))
    ensures !UpdateReachesSave(env, io, users, id, dto) ==> r.status.BadRequest? || r.status.Fatal?
    ensures io.readFault.None? && env.wellFormedId(id) && Find(users, UserWithId(id)).Some? ==>
      r == StoreMerged(env, io, users, MergeUser(Find(users, UserWithId(id)).value, dto, env.hash))
    ensures !r.status.Ok? ==> r.table == users
  {
    match QueryById(users, UserWithId(id), env.wellFormedId(id), io)
    case Raised(f) =>
      // 22P02 is rethrown; anything else leaves `existUser` undefined and `existUser.id` throws
      Reply(if Classify(f).MalformedId? then BadRequest else Fatal, users)
    case Miss =>
      // `findOne` resolved to null and `existUser.id` throws
      Reply(Fatal, users)
    case Hit(exist) => StoreMerged(env, io, users, MergeUser(exist, dto, env.hash))
  }

  /** Lookup by username, with the digest only when `password` is set and never the email. */
  function FindByUsername(io: Io, users: seq<User>, username: string, password: bool): (r: Status<UserView>)
    ensures r.Ok? || r.BadRequest? || r.Swallowed?
    ensures r.Swallowed? <==> io.readFault.Some?
    ensures r.BadRequest? <==> io.readFault.None? && forall i :: 0 <= i < |users| ==> users[i].username != username
    ensures r.Ok? ==> r.value.username == username && r.value.email.None? && (r.value.password.Some? <==> password)
    ensures r.Ok? ==>
      exists i :: 0 <= i < |users| && users[i].username == username && r.value == View(users[i], false, password)
  {
    match Query(users, UsernameIs(username), io)
    case Raised(_) => Swallowed       // only EntityNotFoundError is caught and rethrown
    case Miss => BadRequest           // findOneOrFail raised EntityNotFoundError
    case Hit(u) => Ok(View(u, false, password))
  }

  /** Lookup by id with the owned wishlists expanded; every failure propagates. */
  function FindOne(env: Collaborators, io: Io, users: seq<User>, wishlists: seq<Wishlist>, id: Id): (r: Status<Profile>)
    ensures r.Ok? || r.Fatal?
    ensures r.Ok? <==> io.readFault.None? && env.wellFormedId(id) && exists i :: 0 <= i < |users| && users[i].id == id
    ensures r.Ok? ==> r.value.user.id == id && r.value.user.password.None? && r.value.user.email.Some?
    ensures r.Ok? ==> exists i :: 0 <= i < |users| && users[i].id == id && r.value.user == View(users[i], true, false)
    ensures r.Ok? ==> forall w :: w in r.value.wishlists <==> w in wishlists && w.owner == id
  {
    match QueryById(users, UserWithId(id), env.wellFormedId(id), io)
    case Raised(_) => Fatal           // uncaught QueryFailedError
    case Miss => Fatal                // uncaught EntityNotFoundError
    case Hit(u) => Ok(Profile(View(u, true, false), Filter(wishlists, (w: Wishlist) => w.owner == id)))
  }

  /** A registered user is found by the id the database assigned: the profile
      shows the new row with its email and without its digest. */
  lemma CreateThenFindOne(
    env: Collaborators, io: Io, later: Io, users: seq<User>, wishlists: seq<Wishlist>, dto: CreateUserDto)
    requires later.readFault.None? && env.wellFormedId(io.freshId)
    ensures var r := Create(env, io, users, dto);
      r.status.Ok? ==>
        && FindOne(env, later, r.table, wishlists, io.freshId).Ok?
        && FindOne(env, later, r.table, wishlists, io.freshId).value.user == View(r.status.value, true, false)
  {
    var r := Create(env, io, users, dto);
    if r.status.Ok? {
      FindAppended(users, r.status.value, UserWithId(io.freshId));
    }
  }

  /** Lookup by email or username, projecting everything but the digest. */
  function FindUser(io: Io, users: seq<User>, query: string): (r: Status<UserView>)
    ensures r.Ok? || r.BadRequest? || r.Swallowed?
    ensures r.Swallowed? <==> io.readFault.Some?
    ensures r.Ok? <==>
      io.readFault.None? && exists i :: 0 <= i < |users| && (users[i].email == query || users[i].username == query)
    ensures r.Ok? ==> r.value.password.None? && r.value.email.Some?
    ensures r.Ok? ==> r.value.email == Some(query) || r.value.username == query
    ensures r.Ok? ==> exists i :: 0 <= i < |users| && r.value == View(users[i], true, false)
  {
    match Query(users, EmailOrUsernameIs(query), io)
    case Raised(_) => Swallowed
    case Miss => BadRequest
    case Hit(u) => Ok(View(u, true, false))
  }

  /** With unique usernames, the lookup by username finds exactly that user. */
  lemma FindByUsernameExact(io: Io, users: seq<User>, k: nat, password: bool)
    requires io.readFault.None?
    requires Unique(users) && k < |users|
    ensures FindByUsername(io, users, users[k].username, password) == Ok(View(users[k], false, password))
  {
    var r := FindByUsername(io, users, users[k].username, password);
    assert r.Ok?;
    var i :| 0 <= i < |users| && users[i].username == users[k].username && r.value == View(users[i], false, password);
    assert i == k;
  }

  /** Registration keeps the table's unique constraints. */
  lemma CreatePreservesUnique(env: Collaborators, io: Io, users: seq<User>, dto: CreateUserDto)
    requires Unique(users)
    ensures Unique(Create(env, io, users, dto).table)
  {
    var r := Create(env, io, users, dto);
    if r.status.Ok? {
      var row := r.status.value;
      var t := r.table;
      forall i, j | 0 <= i < j < |t|
        ensures t[i].id != t[j].id && !Takes(t[i], t[j])
      {
        if j == |users| {
          assert t[i] == users[i];
          assert !(users[i].id == row.id || Takes(users[i], row));
        }
      }
    }
  }

  /** A partial update keeps the table's unique constraints. */
  lemma UpdatePreservesUnique(env: Collaborators, io: Io, users: seq<User>, id: Id, dto: UpdateUserDto)
    requires Unique(users)
    ensures Unique(UpdateById(env, io, users, id, dto).table)
  {
    var r := UpdateById(env, io, users, id, dto);
    if r.status.Ok? {
      var m := r.status.value;
      var t := r.table;
      assert !UpdateViolates(users, m);
      forall i, j | 0 <= i < j < |t|
        ensures t[i].id != t[j].id && !Takes(t[i], t[j])
      {
        if users[i].id == id {
          assert t[i] == m && t[j] == users[j];
          assert !(users[j].id != m.id && Takes(users[j], m));
        } else if users[j].id == id {
          assert t[j] == m && t[i] == users[i];
          assert !(users[i].id != m.id && Takes(users[i], m));
        }
      }
    }
  }

  /** After a registration, looking the user up by username, or by email when no
      earlier user has that email as its username, finds the new row with the
      projection each lookup promises. */
  lemma CreateThenFind(env: Collaborators, io: Io, users: seq<User>, dto: CreateUserDto, later: Io)
    requires Create(env, io, users, dto).status.Ok?
    requires later.readFault.None?
    requires forall i :: 0 <= i < |users| ==> users[i].username != dto.email
    ensures var r := Create(env, io, users, dto);
      && FindByUsername(later, r.table, dto.username, false) == Ok(View(r.status.value, false, false))
      && FindUser(later, r.table, dto.email) == Ok(View(r.status.value, true, false))
  {
    var row := Registered(env, io, dto);
    assert !InsertViolates(users, row);
    FindAppended(users, row, UsernameIs(dto.username));
    FindAppended(users, row, EmailOrUsernameIs(dto.email));
  }
}

=== FILE: wishlists_controller.dfy ===
/** The wishlist endpoints that write: owner assignment on creation, the
    ownership gate in front of update and removal, and the rule that resolves
    wishes only for a non-empty `itemsId`. */
module WishlistsController {
  import opened Common
  import opened Domain
  import opened Tables
  import S = WishlistsService

  /** Creation on behalf of the authenticated request user, with the wishes
      resolved from `itemsId`. `wishesFault` is the fault the awaited wish lookup
      raises, if any: it escapes uncaught before the service is called. */
  function Create(
    env: Collaborators, wishesFault: Option<Fault>, io: Io, wishlists: seq<Wishlist>, dto: S.CreateWishlistDto, requester: Id)
    : (r: Reply<Wishlist, Wishlist>)
    ensures wishesFault.Some? ==> r == Reply(Fatal, wishlists)
    ensures wishesFault.None? ==> r == S.Create(env, io, wishlists, dto, requester, env.findManyById(dto.itemsId))
    ensures r.status.Ok? ==>
      r.status.value.owner == requester && r.status.value.items == env.findManyById(dto.itemsId)
    ensures r.status.Ok? <==>
      && wishesFault.None?
      && env.validWishlist(S.CreateDraft(dto, requester, env.findManyById(dto.itemsId)))
      && io.writeFault.None? && !S.IdTaken(wishlists, io.freshId)
    ensures !r.status.Ok? ==> r.table == wishlists
  {
    if wishesFault.Some? then Reply(Fatal, wishlists)
    else S.Create(env, io, wishlists, dto, requester, env.findManyById(dto.itemsId))
  }

  /** A created wishlist belongs to its creator and to nobody else: the next
      ownership check on its id answers exactly whether the user is the requester. */
  lemma CreateThenCheckOwner(
    env: Collaborators, wishesFault: Option<Fault>, io: Io, later: Io,
    wishlists: seq<Wishlist>, dto: S.CreateWishlistDto, requester: Id, user: Id)
    requires later.readFault.None? && env.wellFormedId(io.freshId)
    ensures var r := Create(env, wishesFault, io, wishlists, dto, requester);
      r.status.Ok? ==> S.CheckOwner(env, later, r.table, io.freshId, user) == Ok(user == requester)
  {
    var r := Create(env, wishesFault, io, wishlists, dto, requester);
    if r.status.Ok? {
      FindAppended(wishlists, r.status.value, WishlistWithId(io.freshId));
    }
  }

  /** A non-empty `itemsId`: the update endpoint awaits the wish lookup. */
  predicate ResolvesItems(itemsId: Option<seq<Id>>) {
    itemsId.Some? && |itemsId.value| > 0
  }

  /** The `wishes` the update endpoint hands to the service: resolved only for a
      present, non-empty `itemsId`, otherwise undefined. */
  function ResolveItems(env: Collaborators, itemsId: Option<seq<Id>>): (w: Option<seq<Id>>)
    ensures w.Some? <==> itemsId.Some? && |itemsId.value| > 0
    ensures w.Some? ==> w.value == env.findManyById(itemsId.value)
  {
    if ResolvesItems(itemsId) then Some(env.findManyById(itemsId.value)) else None
  }

  /** The update endpoint: ownership gate (its own read, `gateIo`), then the wish
      lookup when `itemsId` is non-empty (its fault, if any, is `wishesFault`),
      then the service. */
  function Update(
    env: Collaborators, gateIo: Io, wishesFault: Option<Fault>, io: Io,
    wishlists: seq<Wishlist>, id: Id, dto: S.UpdateWishlistDto, requester: Id)
    : (r: Reply<Wishlist, Wishlist>)
    ensures S.CheckOwner(env, gateIo, wishlists, id, requester) == Ok(false) ==> r == Reply(Forbidden, wishlists)
    ensures S.CheckOwner(env, gateIo, wishlists, id, requester).BadRequest? ==> r == Reply(BadRequest, wishlists)
    ensures S.CheckOwner(env, gateIo, wishlists, id, requester).Fatal? ==> r == Reply(Fatal, wishlists)
    ensures (S.CheckOwner(env, gateIo, wishlists, id, requester) == Ok(true)
             && ResolvesItems(dto.itemsId) && wishesFault.Some?) ==>
      r == Reply(Fatal, wishlists)
    ensures (S.CheckOwner(env, gateIo, wishlists, id, requester) == Ok(true)
             && (!ResolvesItems(dto.itemsId) || wishesFault.None?)) ==>
      r == S.Update(env, io, wishlists, id, dto, ResolveItems(env, dto.itemsId))
    ensures r.status.Ok? ==>
      exists i :: 0 <= i < |wishlists| && wishlists[i].id == id && wishlists[i].owner == requester
    ensures r.status.Ok? && !ResolvesItems(dto.itemsId) ==>
      exists i :: 0 <= i < |wishlists| && wishlists[i].id == id && r.status.value.items == wishlists[i].items
    ensures !r.status.Ok? ==> r.table == wishlists
  {
    var gate := S.CheckOwner(env, gateIo, wishlists, id, requester);
    if !gate.Ok? then Reply(Rethrow(gate), wishlists)
    else if !gate.value then Reply(Forbidden, wishlists)
    else if ResolvesItems(dto.itemsId) && wishesFault.Some? then Reply(Fatal, wishlists)
    else S.Update(env, io, wishlists, id, dto, ResolveItems(env, dto.itemsId))
  }

  /** The removal endpoint: ownership gate, then the service. */
  function RemoveOne(env: Collaborators, gateIo: Io, io: Io, wishlists: seq<Wishlist>, id: Id, requester: Id)
    : (r: Reply<Wishlist, Wishlist>)
    ensures S.CheckOwner(env, gateIo, wishlists, id, requester) == Ok(false) ==> r == Reply(Forbidden, wishlists)
    ensures S.CheckOwner(env, gateIo, wishlists, id, requester).BadRequest? ==> r == Reply(BadRequest, wishlists)
    ensures S.CheckOwner(env, gateIo, wishlists, id, requester).Fatal? ==> r == Reply(Fatal, wishlists)
    ensures S.CheckOwner(env, gateIo, wishlists, id, requester) == Ok(true) ==> r == S.RemoveOne(env, io, wishlists, id)
    ensures r.status.Ok? ==>
      exists i :: 0 <= i < |wishlists| && wishlists[i].id == id && wishlists[i].owner == requester
    ensures r.status.Ok? ==> forall w :: w in r.table <==> w in wishlists && w.id != id
    ensures !r.status.Ok? ==> r.table == wishlists
  {
    var gate := S.CheckOwner(env, gateIo, wishlists, id, requester);
    if !gate.Ok? then Reply(Rethrow(gate), wishlists)
    else if !gate.value then Reply(Forbidden, wishlists)
    else S.RemoveOne(env, io, wishlists, id)
  }

  /** A refused update never reaches the wish lookup or the service: its outcome
      depends neither on them nor on the service's storage interaction. */
  lemma ForbiddenUpdateSkipsService(
    env: Collaborators, resolver: seq<Id> -> seq<Id>, gateIo: Io, wishesFault: Option<Fault>, wishesFault': Option<Fault>,
    io: Io, io': Io, wishlists: seq<Wishlist>, id: Id, dto: S.UpdateWishlistDto, requester: Id)
    requires S.CheckOwner(env, gateIo, wishlists, id, requester) == Ok(false)
    ensures Update(env, gateIo, wishesFault, io, wishlists, id, dto, requester)
         == Update(env.(findManyById := resolver), gateIo, wishesFault', io', wishlists, id, dto, requester)
    ensures Update(env, gateIo, wishesFault, io, wishlists, id, dto, requester).status.Forbidden?
  {
    assert S.CheckOwner(env.(findManyById := resolver), gateIo, wishlists, id, requester) == Ok(false);
  }

  /** A refused removal never reaches the service. */
  lemma ForbiddenRemoveSkipsService(
    env: Collaborators, gateIo: Io, io: Io, io': Io, wishlists: seq<Wishlist>, id: Id, requester: Id)
    requires S.CheckOwner(env, gateIo, wishlists, id, requester) == Ok(false)
    ensures RemoveOne(env, gateIo, io, wishlists, id, requester) == RemoveOne(env, gateIo, io', wishlists, id, requester)
    ensures RemoveOne(env, gateIo, io, wishlists, id, requester) == Reply(Forbidden, wishlists)
  {
  }

  /** Without a non-empty `itemsId` the wish lookup is never made: neither what it
      would resolve nor a fault it would raise matters. */
  lemma NoItemsIdSkipsResolver(
    env: Collaborators, resolver: seq<Id> -> seq<Id>, gateIo: Io, wishesFault: Option<Fault>, wishesFault': Option<Fault>,
    io: Io, wishlists: seq<Wishlist>, id: Id, dto: S.UpdateWishlistDto, requester: Id)
    requires dto.itemsId.None? || |dto.itemsId.value| == 0
    ensures Update(env, gateIo, wishesFault, io, wishlists, id, dto, requester)
         == Update(env.(findManyById := resolver), gateIo, wishesFault', io, wishlists, id, dto, requester)
  {
    var env' := env.(findManyById := resolver);
    assert S.CheckOwner(env', gateIo, wishlists, id, requester) == S.CheckOwner(env, gateIo, wishlists, id, requester);
    assert ResolveItems(env', dto.itemsId) == ResolveItems(env, dto.itemsId) == None;
    S.UpdateIgnoresResolver(env, resolver, io, wishlists, id, dto, None);
  }

  /** A non-empty `itemsId` that resolves to no wishes clears the items: the
      service replaces them with the empty list it is handed. */
  lemma UnresolvedItemsClearWishlist(
    env: Collaborators, gateIo: Io, wishesFault: Option<Fault>, io: Io,
    wishlists: seq<Wishlist>, id: Id, dto: S.UpdateWishlistDto, requester: Id)
    requires dto.itemsId.Some? && |dto.itemsId.value| > 0
    requires env.findManyById(dto.itemsId.value) == []
    ensures var r := Update(env, gateIo, wishesFault, io, wishlists, id, dto, requester);
      r.status.Ok? ==> r.status.value.items == []
  {
    var r := Update(env, gateIo, wishesFault, io, wishlists, id, dto, requester);
    if r.status.Ok? {
      assert S.CheckOwner(env, gateIo, wishlists, id, requester) == Ok(true);
      var i :| 0 <= i < |wishlists| && wishlists[i].id == id
        && r.status.value == S.MergeWishlist(wishlists[i], dto, ResolveItems(env, dto.itemsId));
    }
  }
}

=== FILE: wishlists_service.dfy ===
/** The wishlist service: creation with a given owner and resolved wishes, the
    lookups, the partial update with wholesale item replacement, the ownership
    check, and removal. */
module WishlistsService {
  import opened Common
  import opened Tables
  import opened Domain

  /** The creation body; `itemsId` is resolved by the caller, not here. */
  datatype CreateWishlistDto = CreateWishlistDto(name: string, image: string, itemsId: seq<Id>)

  /** The update body: every field optional; `Some("")` behaves like an absent field. */
  datatype UpdateWishlistDto = UpdateWishlistDto(name: Option<string>, image: Option<string>, itemsId: Option<seq<Id>>)

  /** The primary key constraint of the wishlists table. */
  ghost predicate UniqueIds(t: seq<Wishlist>) {
    forall i, j :: 0 <= i < j < |t| ==> t[i].id != t[j].id
  }

  /** Some row already has this id. */
  predicate IdTaken(t: seq<Wishlist>, id: Id) {
    exists i :: 0 <= i < |t| && t[i].id == id
  }

  /** The candidate creation validates: the body's fields, the owner, the resolved wishes. */
  function CreateDraft(dto: CreateWishlistDto, owner: Id, wishes: seq<Id>): (d: WishlistDraft) {
    WishlistDraft(None, dto.name, dto.image, Some(owner), wishes)
  }

  /** Creation: validate, then insert; the save is not guarded, so every storage
      failure (a taken primary key included) is fatal. */
  function Create(env: Collaborators, io: Io, wishlists: seq<Wishlist>, dto: CreateWishlistDto, owner: Id, wishes: seq<Id>)
    : (r: Reply<Wishlist, Wishlist>)
    ensures !env.validWishlist(CreateDraft(dto, owner, wishes)) ==> r == Reply(BadRequest, wishlists)
    ensures r.status.BadRequest? <==> !env.validWishlist(CreateDraft(dto, owner, wishes))
    ensures r.status.Ok? <==>
      env.validWishlist(CreateDraft(dto, owner, wishes)) && io.writeFault.None? && !IdTaken(wishlists, io.freshId)
    ensures r.status.Ok? ==>
      var w := r.status.value;
      && w.owner == owner && w.items == wishes
      && w.name == dto.name && w.image == dto.image && w.id == io.freshId
      && r.table == wishlists + [w]
    ensures r.status.Ok? || r.status.BadRequest? || r.status.Fatal?
    ensures !r.status.Ok? ==> r.table == wishlists
  {
    if !env.validWishlist(CreateDraft(dto, owner, wishes)) then Reply(BadRequest, wishlists)
    else if io.writeFault.Some? || IdTaken(wishlists, io.freshId) then Reply(Fatal, wishlists)
    else
      var w := Wishlist(io.freshId, dto.name, dto.image, owner, wishes);
      Reply(Ok(w), wishlists + [w])
  }

  /** Every wishlist with its owner and items; a storage failure is fatal. */
  function FindAll(io: Io, wishlists: seq<Wishlist>): (r: Status<seq<Wishlist>>)
    ensures r.Ok? || r.Fatal?
    ensures r.Ok? <==> io.readFault.None?
    ensures r.Ok? ==> forall w :: w in r.value <==> w in wishlists
  {
    if io.readFault.Some? then Fatal else Ok(wishlists)
  }

  /** The wishlist with this id, or `None` (null) when there is none. */
  function FindOne(env: Collaborators, io: Io, wishlists: seq<Wishlist>, id: Id): (r: Status<Option<Wishlist>>)
    ensures r.Ok? || r.BadRequest? || r.Swallowed?
    ensures r.BadRequest? <==>
      io.readFault == Some(QueryFailed(InvalidTextRepresentation)) || (io.readFault.None? && !env.wellFormedId(id))
    ensures r.Swallowed? <==> io.readFault.Some? && io.readFault.value != QueryFailed(InvalidTextRepresentation)
    ensures r == Ok(None) <==>
      io.readFault.None? && env.wellFormedId(id) && forall i :: 0 <= i < |wishlists| ==> wishlists[i].id != id
    ensures r.Ok? && r.value.Some? ==>
      exists i :: 0 <= i < |wishlists| && wishlists[i] == r.value.value && wishlists[i].id == id
  {
    match QueryById(wishlists, WishlistWithId(id), env.wellFormedId(id), io)
    case Raised(f) => if Classify(f).MalformedId? then BadRequest else Swallowed
    case Miss => Ok(None)
    case Hit(w) => Ok(Some(w))
  }

  /** A created wishlist is found by its id: the next lookup returns exactly the row stored. */
  lemma CreateThenFindOne(
    env: Collaborators, io: Io, later: Io, wishlists: seq<Wishlist>, dto: CreateWishlistDto, owner: Id, wishes: seq<Id>)
    requires later.readFault.None? && env.wellFormedId(io.freshId)
    ensures var r := Create(env, io, wishlists, dto, owner, wishes);
      r.status.Ok? ==> FindOne(env, later, r.table, io.freshId) == Ok(Some(r.status.value))
  {
    var r := Create(env, io, wishlists, dto, owner, wishes);
    if r.status.Ok? {
      FindAppended(wishlists, r.status.value, WishlistWithId(io.freshId));
    }
  }

  /** After a creation the listing holds the new wishlist and exactly the earlier ones besides. */
  lemma CreateThenFindAll(
    env: Collaborators, io: Io, later: Io, wishlists: seq<Wishlist>, dto: CreateWishlistDto, owner: Id, wishes: seq<Id>)
    requires later.readFault.None?
    ensures var r := Create(env, io, wishlists, dto, owner, wishes);
      r.status.Ok? ==>
        && FindAll(later, r.table).Ok?
        && forall w :: w in FindAll(later, r.table).value <==> w in wishlists || w == r.status.value
  {
  }

  /** The merged record of `update`: id and owner of the existing row; name and
      image from the body when truthy, else kept; the items replaced by `wishes`
      whenever it is supplied, the empty list included. */
  function MergeWishlist(exist: Wishlist, dto: UpdateWishlistDto, wishes: Option<seq<Id>>): (m: Wishlist)
    ensures m.id == exist.id && m.owner == exist.owner
    ensures m.name == (if Truthy(dto.name) then dto.name.value else exist.name)
    ensures m.image == (if Truthy(dto.image) then dto.image.value else exist.image)
    ensures m.items == (if wishes.Some? then wishes.value else exist.items)
    ensures !Truthy(dto.name) && !Truthy(dto.image) && wishes.None? ==> m == exist
  {
    exist.(
      name := KeepIfFalsy(dto.name, exist.name),
      image := KeepIfFalsy(dto.image, exist.image),
      items := if wishes.Some? then wishes.value else exist.items)
  }

  /** The candidate an update validates: the merged record, which carries no owner. */
  function UpdateDraft(m: Wishlist): (d: WishlistDraft) {
    WishlistDraft(Some(m.id), m.name, m.image, None, m.items)
  }

  /** The tail of `update` once the row is found: validate the merged record, then
      UPDATE the rows with its id; every save failure escapes uncaught. */
  function StoreMerged(env: Collaborators, io: Io, wishlists: seq<Wishlist>, m: Wishlist): (r: Reply<Wishlist, Wishlist>)
    ensures !env.validWishlist(UpdateDraft(m)) ==> r == Reply(BadRequest, wishlists)
    ensures r.status.BadRequest? <==> !env.validWishlist(UpdateDraft(m))
    ensures r.status.Ok? <==> env.validWishlist(UpdateDraft(m)) && io.writeFault.None?
    ensures r.status.Ok? || r.status.BadRequest? || r.status.Fatal?
    ensures r.status.Ok? ==>
      && r.status.value == m
      && |r.table| == |wishlists|
      && (forall i :: 0 <= i < |wishlists| ==> r.table[i].id == wishlists[i].id && r.table[i].owner == wishlists[i].owner)
      && (forall i :: 0 <= i < |wishlists| && wishlists[i].id != m.id ==> r.table[i] == wishlists[i])
      && (forall i :: 0 <= i < |wishlists| && wishlists[i].id == m.id ==> r.table[i] == m.(owner := wishlists[i].owner))
    ensures !r.status.Ok? ==> r.table == wishlists
  {
    if !env.validWishlist(UpdateDraft(m)) then Reply(BadRequest, wishlists)
    else if io.writeFault.Some? then Reply(Fatal, wishlists)
    else
      // the UPDATE writes the merged columns; the owner column is not among them
      Reply(Ok(m), UpdateWhere(wishlists, WishlistWithId(m.id),
                               (w: Wishlist) => w.(name := m.name, image := m.image, items := m.items)))
  }

  /** Partial update: read the row with its items, merge, validate, save. */
  function Update(env: Collaborators, io: Io, wishlists: seq<Wishlist>, id: Id, dto: UpdateWishlistDto, wishes: Option<seq<Id>>)
    : (r: Reply<Wishlist, Wishlist>)
    ensures io.readFault == Some(QueryFailed(InvalidTextRepresentation)) ==> r == Reply(BadRequest, wishlists)
    ensures io.readFault.None? && !env.wellFormedId(id) ==> r == Reply(BadRequest, wishlists)
    ensures io.readFault.Some? && io.readFault.value != QueryFailed(InvalidTextRepresentation) ==> r == Reply(Fatal, wishlists)
    ensures io.readFault.None? && env.wellFormedId(id) && (forall i :: 0 <= i < |wishlists| ==> wishlists[i].id != id)
      ==> r == Reply(Fatal, wishlists)
    ensures r.status.Ok? || r.status.BadRequest? || r.status.Fatal?
    ensures r.status.Ok? ==>
      exists i :: 0 <= i < |wishlists| && wishlists[i].id == id
        && r.status.value == MergeWishlist(wishlists[i], dto, wishes)
        && env.validWishlist(UpdateDraft(r.status.value))
    ensures r.status.Ok? ==> io.writeFault.None?
    ensures r.status.Ok? ==>
      && |r.table| == |wishlists|
      && (forall i :: 0 <= i < |wishlists| ==> r.table[i].id == wishlists[i].id && r.table[i].owner == wishlists[i].owner)
      && (forall i :: 0 <= i < |wishlists| && wishlists[i].id != id ==> r.table[i] == wishlists[i])
      && (forall i :: 0 <= i < |wishlists| && wishlists[i].id == id ==>
            r.table[i] == r.status.value.(owner := wishlists[i].owner))
    ensures io.readFault.None? && env.wellFormedId(id) && Find(wishlists, WishlistWithId(id)).Some? ==>
      r == StoreMerged(env, io, wishlists, MergeWishlist(Find(wishlists, WishlistWithId(id)).value, dto, wishes))
    ensures !r.status.Ok? ==> r.table == wishlists
  {
    match QueryById(wishlists, WishlistWithId(id), env.wellFormedId(id), io)
    case Raised(f) =>
      // 22P02 is rethrown; anything else leaves `existWishlist` undefined and `existWishlist.id` throws
      Reply(if Classify(f).MalformedId? then BadRequest else Fatal, wishlists)
    case Miss =>
      // `findOne` resolved to null and `existWishlist.id` throws
      Reply(Fatal, wishlists)
    case Hit(exist) => StoreMerged(env, io, wishlists, MergeWishlist(exist, dto, wishes))
  }

  /** The ownership check: does the wishlist's owner have this id? A missing row
      is not "not the owner": `wishlist.owner.id` throws. */
  function CheckOwner(env: Collaborators, io: Io, wishlists: seq<Wishlist>, wishlistId: Id, userId: Id): (r: Status<bool>)
    ensures r.Ok? || r.BadRequest? || r.Fatal?
    ensures r.BadRequest? <==>
      io.readFault == Some(QueryFailed(InvalidTextRepresentation)) || (io.readFault.None? && !env.wellFormedId(wishlistId))
    ensures r.Ok? <==>
      io.readFault.None? && env.wellFormedId(wishlistId) && exists i :: 0 <= i < |wishlists| && wishlists[i].id == wishlistId
    ensures r.Ok? ==>
      exists i :: 0 <= i < |wishlists| && wishlists[i].id == wishlistId && (r.value <==> wishlists[i].owner == userId)
  {
    match QueryById(wishlists, WishlistWithId(wishlistId), env.wellFormedId(wishlistId), io)
    case Raised(f) => if Classify(f).MalformedId? then BadRequest else Fatal
    case Miss => Fatal
    case Hit(w) => Ok(w.owner == userId)
  }

  /** Removal: load the row, delete it. No ownership check happens here. */
  function RemoveOne(env: Collaborators, io: Io, wishlists: seq<Wishlist>, id: Id): (r: Reply<Wishlist, Wishlist>)
    ensures r.status.Ok? || r.status.Fatal?
    ensures r.status.Ok? <==>
      && io.readFault.None? && env.wellFormedId(id) && io.writeFault.None?
      && exists i :: 0 <= i < |wishlists| && wishlists[i].id == id
    ensures r.status.Ok? ==> r.status.value.id == id && r.status.value in wishlists
    ensures r.status.Ok? ==> forall i :: 0 <= i < |r.table| ==> r.table[i].id != id
    ensures r.status.Ok? ==> forall w :: w in r.table <==> w in wishlists && w.id != id
    ensures !r.status.Ok? ==> r.table == wishlists
  {
    match QueryById(wishlists, WishlistWithId(id), env.wellFormedId(id), io)
    case Raised(_) => Reply(Fatal, wishlists)   // not caught
    case Miss => Reply(Fatal, wishlists)        // `remove(null)` rejects a non-entity
    case Hit(w) =>
      if io.writeFault.Some? then Reply(Fatal, wishlists)
      else Reply(Ok(w), Filter(wishlists, (x: Wishlist) => x.id != id))
  }

  /** The service never resolves wishes itself: its outcome does not depend on the resolver. */
  lemma UpdateIgnoresResolver(
    env: Collaborators, resolver: seq<Id> -> seq<Id>, io: Io, wishlists: seq<Wishlist>, id: Id,
    dto: UpdateWishlistDto, wishes: Option<seq<Id>>)
    ensures Update(env, io, wishlists, id, dto, wishes) == Update(env.(findManyById := resolver), io, wishlists, id, dto, wishes)
  {
  }

  /** With unique ids, the ownership check answers exactly whether `userId` owns the row. */
  lemma CheckOwnerExact(env: Collaborators, io: Io, wishlists: seq<Wishlist>, i: nat, userId: Id)
    requires UniqueIds(wishlists)
    requires i < |wishlists|
    requires io.readFault.None? && env.wellFormedId(wishlists[i].id)
    ensures CheckOwner(env, io, wishlists, wishlists[i].id, userId) == Ok(wishlists[i].owner == userId)
  {
    var r := CheckOwner(env, io, wishlists, wishlists[i].id, userId);
    assert r.Ok?;
    var k :| 0 <= k < |wishlists| && wishlists[k].id == wishlists[i].id && (r.value <==> wishlists[k].owner == userId);
    assert k == i;
  }

  /** Dropping rows keeps the primary key unique. */
  lemma {:induction false} FilterKeepsUniqueIds(t: seq<Wishlist>, p: Wishlist -> bool)
    requires UniqueIds(t)
    ensures UniqueIds(Filter(t, p))
  {
    if |t| > 0 {
      var rest := Filter(t[1..], p);
      FilterKeepsUniqueIds(t[1..], p);
      if p(t[0]) {
        forall x | x in rest
          ensures x.id != t[0].id
        {
          var k :| 0 <= k < |t| - 1 && t[1..][k] == x;
          assert t[k + 1] == x;
        }
        var r := [t[0]] + rest;
        assert r == Filter(t, p);
        forall i, j | 0 <= i < j < |r|
          ensures r[i].id != r[j].id
        {
          assert r[j] == rest[j - 1];
          if i > 0 {
            assert r[i] == rest[i - 1];
          }
        }
      }
    }
  }

  /** Creation keeps the primary key unique. */
  lemma CreateKeepsUniqueIds(
    env: Collaborators, io: Io, wishlists: seq<Wishlist>, dto: CreateWishlistDto, owner: Id, wishes: seq<Id>)
    requires UniqueIds(wishlists)
    ensures UniqueIds(Create(env, io, wishlists, dto, owner, wishes).table)
  {
    var c := Create(env, io, wishlists, dto, owner, wishes);
    if c.status.Ok? {
      forall i, j | 0 <= i < j < |c.table|
        ensures c.table[i].id != c.table[j].id
      {
        if j == |wishlists| {
          assert c.table[i] == wishlists[i];
        }
      }
    }
  }

  /** An update keeps the primary key unique: it rewrites no id. */
  lemma UpdateKeepsUniqueIds(
    env: Collaborators, io: Io, wishlists: seq<Wishlist>, id: Id, dto: UpdateWishlistDto, wishes: Option<seq<Id>>)
    requires UniqueIds(wishlists)
    ensures UniqueIds(Update(env, io, wishlists, id, dto, wishes).table)
  {
  }

  /** Removal keeps the primary key unique. */
  lemma RemoveKeepsUniqueIds(env: Collaborators, io: Io, wishlists: seq<Wishlist>, id: Id)
    requires UniqueIds(wishlists)
    ensures UniqueIds(RemoveOne(env, io, wishlists, id).table)
  {
    if RemoveOne(env, io, wishlists, id).status.Ok? {
      FilterKeepsUniqueIds(wishlists, (x: Wishlist) => x.id != id);
    }
  }
}
